=== FILE: README.md ===
# Homebase sensors — a Dafny model

Homebase is a small home-monitoring system. Sensors register with a
collector. Then they push readings to it. An operator activates a registered
sensor by naming it and putting it in a room (the intended behaviour; see
## Findings). This project models the parts
of Homebase that hold logic, as pure functions over immutable values. It
also proves what those parts promise.

- **The sensor agent** (`utils/Sensor.py`, module `Agent`):
  - The registration handshake. It retries every 2 seconds until the collector answers 200 or 201.
  - The telemetry loop. Each tick it generates a Gaussian-walk sample, POSTs it and reads the status as sent, awaiting registration (403) or failed. It then sleeps `1 / freq`.
  - The RPC routes `/setSampleRate` and `/getSampleRate`, bound from the class's `RPC_INTERFACE`.
  - The identity body sent at registration.
- **The mock spawner** (`utils/sensor_spawn.py`, module `Spawner`):
  - The Brownian ±1 generator and the binary toggle.
  - Each mock sensor's `last` state.
  - Its one-shot registration.
  - Its rule that only 201 and 403 are acceptable telemetry answers.
- **The collector's sensor rules** (`homebase/sensors/models.py` and `views.py`, modules `SensorModels` and `SensorViews`):
  - The sensor row and its status enum (AC/IN/UR).
  - `register`, `add_to_room` and the cascade and set-null deletes.
  - Sensor create, an idempotent get-or-create (201, then 200).
  - The `register` action and its room argument.
  - The reading create, which answers 403 for any sensor that is not ACTIVE.
  - The database is a value: a map from identifier to sensor row, the readings in insertion order, and the set of room ids.
- **Integration** (module `Integration`): the collector's answers fed back into the agent's handshake and loop, and into the spawner's acceptance rule.

Things outside the model become parameters:

- the noise `random.gauss` draws;
- the step `random.randint(-1, 1)` draws;
- the value `random.random()` draws;
- the outcome of every outbound POST (a status or a connection error);
- every inbound RPC body;
- the reading's timestamp;
- the mock sensor's UUID.

Sleeps are recorded in the run, not taken. Where the code and its documented
design differ, the model follows the code:

- The telemetry loop does not catch a connection error. One ends the task (`Agent.TickStep`).
- `setSampleRate` does no validation. A rate of 0 is accepted. The next tick still POSTs its reading; its `data_interval` then divides by zero and ends the task (`Agent.TickStep`).
- A body without `rate` is a `KeyError`, not a schema error.

## Model

| member | source | states |
|---|---|---|
| Agent.NewSensor | utils/Sensor.py:9-14 | a new sensor samples at 0.5 Hz and keeps the port, destination and identifier it was given; its type is the one given, or "generic" when none is |
| Agent.NewMarkovRandomSensor | utils/Sensor.py:99-104 | a Gaussian-walk sensor starts at 0.5 Hz with the initial value and label it was given, defaulting to 75.0 and "temperature", and the type given, defaulting to "generic" |
| Agent.DataInterval | utils/Sensor.py:27-29 | the interval exists exactly when the frequency is non-zero, and then interval × frequency = 1; otherwise it is a division by zero |
| Agent.InitialDataInterval | utils/Sensor.py:14 | at the initial 0.5 Hz the interval is 2 seconds |
| Agent.RpcInterface | utils/Sensor.py:94-97 | the base class declares no RPC methods; the Gaussian walk declares exactly setSampleRate, taking a numeric "rate", and getSampleRate, taking nothing |
| Agent.HandlerFor | utils/Sensor.py:70 | a name resolves to a handler iff the class declares it, and setSampleRate and getSampleRate resolve to their own handlers |
| Agent.RouteOf | utils/Sensor.py:71 | the route of a name is "/" followed by exactly that name |
| Agent.GetIdentity | utils/Sensor.py:31-37 | the registration body carries the sensor's identifier, its type and its class's whole RPC interface, parameter schemas included |
| Agent.RouteOfInjective | utils/Sensor.py:68-72 | two method names get the same route only if they are the same name |
| Agent.EveryDeclaredNameHasHandler | utils/Sensor.py:94-97 | every name a class declares resolves to a handler, so binding its routes cannot fail and the missing-handler error of `Agent.SetupRpcInterface` is never reached |
| Agent.MarkovRandomRoutes | utils/Sensor.py:94-97 | a Gaussian-walk sensor serves exactly the routes /setSampleRate and /getSampleRate |
| Agent.SetupRpcInterface | utils/Sensor.py:68-72 | binding succeeds iff every declared name has a handler; then the routes are exactly "/" + name for the declared names, each bound to the handler of that name |
| Agent.SetSampleRate | utils/Sensor.py:116-125 | succeeds iff the body has a "rate" that Python arithmetic reads as a number (a number, or a boolean as 1 or 0); then the frequency becomes that rate, nothing else changes, and the reply gives the frequency before the call and the requested rate |
| Agent.GetSampleRate | utils/Sensor.py:127-129 | the reply is the current frequency |
| Agent.SetThenGet | utils/Sensor.py:116-129 | setting rate x and then reading the rate gives x, and the set reply's old rate is the frequency before the set |
| Agent.SetRateUndo | utils/Sensor.py:116-125 | setting a rate and then setting the previous rate back restores the sensor exactly |
| Agent.Dispatch | utils/Sensor.py:71-72 | a request to an unbound path is refused; one to a path bound to setSampleRate or getSampleRate is exactly that handler's call; no request changes the sensor's identifier or class state |
| Agent.DispatchOnBoundRoutes | utils/Sensor.py:68-72 | on the routes bound for a Gaussian-walk sensor, /setSampleRate sets the rate, /getSampleRate reads it, and every other path is not found |
| Agent.RunHandshake | utils/Sensor.py:49-65 | registration holds iff some attempt got 200 or 201; the POSTs stop at the first such attempt; every earlier attempt is a failure followed by one 2 s pause; every body is the identity |
| Agent.HandshakeStopsAtFirstSuccess | utils/Sensor.py:52-65 | if the first success is attempt n, there are n + 1 POSTs and n pauses |
| Agent.GenData | utils/Sensor.py:89-113 | the base class raises; a Gaussian walk moves its value by the noise and reports `{identifier, data: {label: new value}}`, leaving frequency and identifier unchanged |
| Agent.Classify | utils/Sensor.py:80-85 | a status is read as sent iff it is 200 or 201, as awaiting registration iff it is 403, and as failed otherwise |
| Agent.TickStep | utils/Sensor.py:74-86 | the base class stops with NotImplemented and does nothing; a connection error stops the walk with nothing recorded; at frequency 0 the reading is POSTed and only then the interval divides by zero; otherwise the tick POSTs the generated body, classifies the status and sleeps an interval whose product with the current frequency is 1; the walk's new state is the generator's, and the base class's state is untouched |
| Agent.Telemetry | utils/Sensor.py:74-86 | the loop keeps the identifier, class, label, port, destination and type, records at most two effects per tick, posts only bodies with the sensor's own identifier, and a walk sensor ends at the rate of a final accepted rate request; a base-class sensor, which serves no routes, is never changed |
| Agent.AfterStop | utils/Sensor.py:116-125 | once the loop has died a walk sensor changes only its frequency, and a final accepted rate request sets it; it keeps its identifier, class, port, destination and type; without a rate request, or for a base-class sensor that serves no /setSampleRate, it is left exactly as it was |
| Agent.NoStatusEndsLoop | utils/Sensor.py:75-86 | for any statuses, with no connection error and no zero rate, a Gaussian-walk sensor ticks through every event with exactly two effects per tick, never stopping, and ends at its initial value plus the sum of the noise |
| Agent.RateChangeTakesEffectNextTick | utils/Sensor.py:86 | a rate x set between ticks makes the very next sleep 1/x |
| Agent.RateRequestsOutliveLoop | utils/Sensor.py:74-86 | after a connection error ends the loop, with nothing posted, a later setSampleRate still replaces the frequency |
| Agent.BaseSensorIgnoresRateRequests | utils/Sensor.py:7 | the base class binds no /setSampleRate, so rate requests leave its 0.5 Hz alone, and its first tick ends the loop with nothing posted |
| Spawner.GenBrownian | utils/sensor_spawn.py:29-31 | the new state differs from the seed by the drawn step, at most 1, and the payload is `{stype: new state}` |
| Spawner.GenBinary | utils/sensor_spawn.py:33-39 | below 0.1 the state becomes 0 iff the seed was non-zero; otherwise the seed is kept; the payload is `{stype: new state}` |
| Spawner.Negate | utils/sensor_spawn.py:35 | `int(not bool(seed))` is 1 iff the seed is 0, and 0 otherwise |
| Spawner.BinaryStaysBinary | utils/sensor_spawn.py:33-39 | from 0 or 1 the toggle yields 0 or 1 |
| Spawner.FlipTwice | utils/sensor_spawn.py:33-39 | two flips of a 0/1 state give it back |
| Spawner.Generate | utils/sensor_spawn.py:41-44 | every generator's payload has exactly one key, its label, whose value is the new state |
| Spawner.Spawn | utils/sensor_spawn.py:41-44 | only "temperature" (Brownian) and "door" (binary) have generators, labelled by the type; every spawned sensor starts with last = 0 |
| Spawner.RegistrationBody | utils/sensor_spawn.py:16 | the mock registers with exactly `{identifier, sensor_type}` |
| Spawner.RegisterOnce | utils/sensor_spawn.py:15-18 | one attempt and no retry; success iff the status is 200 or 201; a connection error is not caught |
| Spawner.Next | utils/sensor_spawn.py:21 | `last` becomes the generator's new state, and identity and generator are kept |
| Spawner.PostData | utils/sensor_spawn.py:20-24 | the state advances whatever the answer; the body is `{identifier, data}` with the generator's payload; a status is acceptable iff it is 201 or 403, so 200 counts as a failure |
| Spawner.Advance | utils/sensor_spawn.py:20-22 | successive posts keep the sensor's identifier, type and generator |
| Spawner.DoorStaysBinary | utils/sensor_spawn.py:33-39 | a door sensor started at 0 or 1 stays in {0, 1} over any number of posts |
| Spawner.BrownianBounded | utils/sensor_spawn.py:29-31 | after n posts a temperature sensor is within n of where it started |
| Spawner.SpawnedSensorsStayInRange | utils/sensor_spawn.py:29-44 | a spawned door sensor only ever reports 0 or 1, and a spawned temperature sensor is within n of 0 after n posts |
| SensorModels.StatusFromCode | homebase/sensors/models.py:7-10 | exactly "AC", "IN" and "UR" are valid stored statuses |
| SensorModels.StatusCodeRoundTrip | homebase/sensors/models.py:7-10 | every status is stored as a two-letter code among AC/IN/UR and read back as itself |
| SensorModels.StatusCodesDistinct | homebase/sensors/models.py:7-10 | distinct statuses have distinct codes and distinct labels (Active/Inactive/Unregistered) |
| SensorModels.NewSensor | homebase/sensors/models.py:12-17 | a new row is UNREGISTERED with no name, room or last_seen |
| SensorModels.Register | homebase/sensors/models.py:19-22 | the row gets the name and status ACTIVE; identifier, type, room and last_seen are unchanged |
| SensorModels.AddToRoom | homebase/sensors/models.py:24-26 | only the room changes |
| SensorModels.RegisterIdempotent | homebase/sensors/models.py:19-22 | registering twice with the same name equals registering once |
| SensorModels.RegisterCommutesWithAddToRoom | homebase/sensors/models.py:19-26 | naming and placing a sensor are independent |
| SensorModels.IdentifiersUnique | homebase/sensors/models.py:12 | in a consistent database no two rows share an identifier |
| SensorModels.ReadingsOfAppend | homebase/sensors/models.py:32-35 | a new reading joins its own sensor's readings, at the end, and no other sensor's |
| SensorModels.WithoutKeepsOthers | homebase/sensors/models.py:33 | removing one sensor's readings leaves it none and leaves every other sensor's readings as they were |
| SensorModels.WithoutKeepsAllOthers | homebase/sensors/models.py:33 | removing one sensor's readings leaves every other sensor's readings as they were, for all other sensors at once |
| SensorModels.DeleteSensor | homebase/sensors/models.py:33 | deleting a sensor removes its row and every reading of it, keeps all other rows and every other sensor's readings in order, keeps the rooms, and keeps the database consistent |
| SensorModels.DeleteRoom | homebase/sensors/models.py:15 | deleting a room clears the room of exactly the sensors in it, removes nothing else, and keeps the database consistent |
| SensorViews.CreateSensor | homebase/sensors/views.py:16-24 | succeeds iff both fields are given and the identifier is free or held under the same type; an existing row gives 200 and no change; otherwise one UNREGISTERED row is added with 201; a conflict is an integrity error |
| SensorViews.CreateSensorIdempotent | homebase/sensors/views.py:20-23 | two identical creates give 201 then 200 and leave exactly one row more |
| SensorViews.CreateSensorTypeConflict | homebase/sensors/views.py:20 | the same identifier under another type is refused, not duplicated |
| SensorViews.HttpStatus | homebase/sensors/views.py:34-43 | a reply is sent with its own status; a missing detail object is a 404; every other exception (integrity error, missing room, bad room list, bad call) is a 500 |
| SensorViews.NormaliseRoom | homebase/sensors/views.py:36-41 | a non-list passes unchanged, a one-element list is unwrapped, any other list is a ValueError |
| SensorViews.FindRoom | homebase/sensors/views.py:42 | the room is found iff it is the id of an existing room |
| SensorViews.RegisterArguments | homebase/sensors/views.py:35-42 | the checks pass iff the sensor exists, the room argument normalises and names an existing room, and then they yield that room; a missing sensor is a 404, a bad list a ValueError, a missing room DoesNotExist |
| SensorViews.RegisterArgumentsSingletonList | homebase/sensors/views.py:37-39 | a room given as a one-element list is checked exactly like the element itself |
| SensorViews.RegisterSensorAsWritten | homebase/sensors/views.py:43 | as written the action never succeeds: once its checks pass, the two-argument register call raises |
| SensorViews.RegisterArityMismatch | homebase/sensors/views.py:43 | on an existing sensor and room [7], the code as written raises TypeError while the intended action activates the sensor |
| SensorViews.RegisterSensor | homebase/sensors/views.py:34-44 | succeeds iff the checks pass; then the sensor is named, ACTIVE and in the room, with its identifier, type and last_seen kept; no other row changes, and the database stays consistent |
| SensorViews.CreateReading | homebase/sensors/views.py:52-63 | an unknown identifier raises and stores nothing; a sensor that is not ACTIVE gets 403 and nothing is stored; an ACTIVE one gets exactly one reading appended with 201 |
| SensorViews.CreateReadingTouchesOnlyItsSensor | homebase/sensors/views.py:61-63 | a stored reading is added to its sensor's readings and no other sensor's |
| SensorViews.Apply | homebase/sensors/models.py:12-33 | no request breaks the uniqueness, reading-owner or room constraints, and the only status change any request makes is to ACTIVE |
| SensorViews.NeverInactive | homebase/sensors/models.py:9 | from a database with no INACTIVE sensor, no sequence of requests ever produces one |
| Integration.HandshakeCompletesAgainstCollector | homebase/sensors/views.py:16-24 | against a collector where the identifier is free or held under the same type, the agent registers on its first attempt with no pause |
| Integration.HandshakeNeverCompletesOnTypeConflict | homebase/sensors/views.py:20 | an identifier taken under another type gets 500 every time, so after n attempts the agent is still unregistered and has paused n times |
| Integration.TickOutcomeMatchesCollector | homebase/sensors/views.py:52-63 | the agent reads a tick as awaiting registration iff its row is not ACTIVE, as sent iff it is ACTIVE (exactly one reading stored), and as failed iff it is unknown |
| Integration.ActivationUnblocksTelemetry | homebase/sensors/views.py:34-44 | after registration the agent's readings get 403; after the register action they are stored |
| Integration.MockAcceptsCollectorReplies | utils/sensor_spawn.py:23-24 | against the collector, the mock reads its post as acceptable iff the collector knows its identifier |
| Integration.MockRegistrationAgainstCollector | utils/sensor_spawn.py:15-18 | the mock's one-shot registration succeeds iff its identifier is free or held under the same type |

## Findings

| source | as written | input that shows it | evidently intended | confidence | as-written member | corrected member |
|---|---|---|---|---|---|---|
| homebase/sensors/views.py:43 | `sensor.register(name, room_obj)` calls `Sensor.register(self, name)`, defined at homebase/sensors/models.py:19, with one argument too many, so it raises TypeError | an existing sensor "s1", an existing room 7, body `{name: "Kitchen", room: [7]}` | name the sensor, make it ACTIVE and put it in the room, as homebase/sensors/tests.py:29-31 expects | not executed; high (an arity mismatch in Python always raises) | SensorViews.RegisterSensorAsWritten | SensorViews.RegisterSensor |

`SensorViews.RegisterArityMismatch` shows both halves on the input above.
`Sensor.register` itself is modelled as written: it sets the name and ACTIVE.
The intended action composes it with `add_to_room`. The rest of the model,
and `Integration.ActivationUnblocksTelemetry`, uses the intended action.

## Left out

- asyncio and aiohttp: the server, client sessions, tasks and the event loop are not modelled. RPC requests reach the telemetry loop only between ticks, so a `setSampleRate` arriving during a POST is not modelled.
- Randomness: the noise, the step and the uniform draw are parameters. No statistical property is stated.
- Floating point: frequencies, noise and walk values are Dafny `real`, not IEEE doubles.
- Command-line and YAML entry points (utils/Sensor.py:132-169, utils/sensor_spawn.py:46-68): I/O plumbing. In the non-config path, utils/Sensor.py:151 passes `indentifier`, so the constructor would fail.
- The spawner's main loop: `gather` and the 5–10 s random sleep between rounds are not modelled.
- Agent.SetSampleRate: it refuses a "rate" that is neither a JSON number nor a boolean. The source stores any value there, and a string or null only fails at the next tick's `1 / rate` or `random.gauss`. A boolean is taken as 1 or 0, as Python's arithmetic takes it; `getSampleRate` would then echo `true` or `false` where the model answers 1.0 or 0.0.
- Agent.RunHandshake: only `ClientConnectionError` is caught by the source. Other client exceptions, such as timeouts, would escape `register` and are not modelled.
- Agent.Dispatch: responses are modelled as reply values, not JSON bodies. Routes are matched by path only, and the HTTP method is not modelled.
- SensorViews.Apply: the request set covers create, the register action, the reading create and the two deletes. The generic actions the ModelViewSets inherit are not modelled otherwise: update and partial_update on sensors, and update, partial_update and destroy on readings. So `SensorViews.NeverInactive` and `Apply`'s invariants quantify over the modelled requests only. The sensor serializer's `status` field is read from `get_status_display` (homebase/sensors/serializers.py:9), so an update through the API does not write the status column, by our reading of Django REST framework, whose code is not part of this model. INACTIVE is reachable only through the admin site (homebase/sensors/admin.py:6-21), which is not modelled.
- SensorViews.FindRoom: Django would also accept a numeric string as a room id. Only integer ids are modelled.
- SensorViews.RegisterSensor: the detail route finds the row by its primary key. The model finds it by identifier, which is unique.
- SensorViews.CreateReading: besides the null `data` rejection, the serializer's validation is not modelled.
- Serializer output and response bodies: only statuses and stored rows are modelled.
- `max_length=100` on the character fields is not enforced.
- `last_seen` is never written by any code in the model, so it is only carried.
- The Dash dashboard, the rooms app, admin, URL modules, migrations and the test base: UI and framework configuration. Rooms exist only as a set of ids.

=== FILE: agent.dfy ===
/** The simulated sensor agent of utils/Sensor.py: a base `Sensor` with an
    empty RPC interface and no data generator, and `MarkovRandomSensor`, a
    Gaussian walk with a `setSampleRate`/`getSampleRate` RPC pair.

    HTTP, asyncio and randomness are abstracted away: the noise drawn by
    `random.gauss`, the outcome of every outbound POST and every inbound RPC
    request are parameters, and sleeps are recorded rather than taken. */
module Agent {
  import opened Protocol

  /** Sample frequency, in Hz, of a freshly constructed sensor. */
  const InitialFrequency: real := 0.5
  /** Fixed pause, in seconds, after every failed registration attempt. */
  const RetryDelay: real := 2.0
  const DefaultSensorType: string := "generic"
  const DefaultInitialValue: real := 75.0
  const DefaultField: string := "temperature"

  /** The declared type of one RPC parameter. */
  datatype ParamType = Number

  /** The sensor's class, with the state only a Gaussian-walk sensor carries:
      its current value and the field its samples are reported under. */
  datatype Kind = Generic | MarkovRandom(value: real, field: string)

  datatype Sensor = Sensor(
    port: int,
    dest: string,
    identifier: string,
    sensorType: string,
    freq: real,
    kind: Kind)

  /** The body POSTed to the collector's `/sensors/` route. */
  datatype Identity = Identity(
    identifier: string,
    sensorType: string,
    rpcInterface: map<string, map<string, ParamType>>)

  datatype Fault =
    | NotImplemented     // gen_data of the base class
    | ZeroDivision       // data_interval with a frequency of 0
    | ConnectionLost     // ClientConnectionError not caught by the loop
    | MissingHandler     // getattr of an interface name the class lacks
    | RouteNotFound      // inbound request for an unbound route
    | BadRequestBody     // body without a numeric "rate"

  /** The class-level RPC_INTERFACE: method name to parameter schema. */
  function RpcInterface(k: Kind): (r: map<string, map<string, ParamType>>)
    ensures k.Generic? ==> r == map[]
    ensures k.MarkovRandom? ==> r.Keys == {"setSampleRate", "getSampleRate"}
    ensures k.MarkovRandom? ==> r["setSampleRate"] == map["rate" := Number] && r["getSampleRate"] == map[]
  {
    match k
    case Generic => map[]
    case MarkovRandom(_, _) =>
      map["setSampleRate" := map["rate" := Number], "getSampleRate" := map[]]
  }

  /** `Sensor(port, dest, identifier, sensor_type)`; an absent
      `sensor_type` keyword falls back to "generic". */
  function NewSensor(port: int, dest: string, identifier: string, sensorType: Option<string>): (s: Sensor)
    ensures s.freq == InitialFrequency && s.kind == Generic
    ensures s.port == port && s.dest == dest && s.identifier == identifier
    ensures sensorType.None? ==> s.sensorType == DefaultSensorType
    ensures sensorType.Some? ==> s.sensorType == sensorType.value
  {
    Sensor(port, dest, identifier, sensorType.GetOr(DefaultSensorType), InitialFrequency, Generic)
  }

  /** `MarkovRandomSensor(...)`; an absent `initial_value` keyword falls
      back to 75.0, an absent `label` keyword (named `field` here because
      `label` is reserved in Dafny) to "temperature", an absent
      `sensor_type` to "generic". */
  function NewMarkovRandomSensor(
    port: int, dest: string, identifier: string, sensorType: Option<string>,
    initialValue: Option<real>, field: Option<string>): (s: Sensor)
    ensures s.freq == InitialFrequency
    ensures s.kind.MarkovRandom?
    ensures initialValue.None? ==> s.kind.value == DefaultInitialValue
    ensures initialValue.Some? ==> s.kind.value == initialValue.value
    ensures field.None? ==> s.kind.field == DefaultField
    ensures field.Some? ==> s.kind.field == field.value
    ensures s.port == port && s.dest == dest && s.identifier == identifier
    ensures sensorType.None? ==> s.sensorType == DefaultSensorType
    ensures sensorType.Some? ==> s.sensorType == sensorType.value
  {
    var base := NewSensor(port, dest, identifier, sensorType);
    base.(kind := MarkovRandom(initialValue.GetOr(DefaultInitialValue), field.GetOr(DefaultField)))
  }

  /** `data_interval`: the pause between ticks, `1 / freq`. */
  function DataInterval(s: Sensor): (r: Result<real, Fault>)
    ensures r.Ok? <==> s.freq != 0.0
    ensures r.Ok? ==> r.value * s.freq == 1.0
    ensures r.Err? ==> r.error == ZeroDivision
  {
    if s.freq == 0.0 then Err(ZeroDivision) else Ok(1.0 / s.freq)
  }

  lemma InitialDataInterval(s: Sensor)
    requires s.freq == InitialFrequency
    ensures DataInterval(s) == Ok(2.0)
  {
  }

  /** `identity`: the registration body. */
  function GetIdentity(s: Sensor): (r: Identity)
    ensures r.identifier == s.identifier && r.sensorType == s.sensorType
    ensures r.rpcInterface == RpcInterface(s.kind)
  {
    Identity(s.identifier, s.sensorType, RpcInterface(s.kind))
  }

  // ---------------------------------------------------------------------
  // RPC interface
  // ---------------------------------------------------------------------

  /** The coroutines an interface name can resolve to. */
  datatype Handler = SetSampleRateHandler | GetSampleRateHandler

  /** `getattr(self, name)` restricted to the RPC handlers a class defines. */
  function HandlerFor(k: Kind, name: string): (r: Option<Handler>)
    ensures r.Some? <==> name in RpcInterface(k)
    ensures r == Some(SetSampleRateHandler) <==> k.MarkovRandom? && name == "setSampleRate"
    ensures r == Some(GetSampleRateHandler) <==> k.MarkovRandom? && name == "getSampleRate"
  {
    match k
    case Generic => None
    case MarkovRandom(_, _) =>
      if name == "setSampleRate" then Some(SetSampleRateHandler)
      else if name == "getSampleRate" then Some(GetSampleRateHandler)
      else None
  }

  /** The route a method name is bound to. */
  function RouteOf(name: string): (r: string)
    ensures |r| == |name| + 1 && r[0] == '/' && r[1..] == name
  {
    "/" + name
  }

  /** Distinct method names are bound to distinct routes. */
  lemma RouteOfInjective(a: string, b: string)
    ensures RouteOf(a) == RouteOf(b) ==> a == b
  {
    if RouteOf(a) == RouteOf(b) {
      assert a == RouteOf(a)[1..];
      assert b == RouteOf(b)[1..];
    }
  }

  /** The routes a kind's interface binds. */
  function RouteSet(k: Kind): set<string> {
    set name | name in RpcInterface(k) :: RouteOf(name)
  }

  /** Every name a kind declares has a handler, so route setup never fails
      for the two classes of the agent: the `MissingHandler` branch of
      `SetupRpcInterface` is kept for fidelity to `getattr`, but no kind of
      this model reaches it. */
  lemma EveryDeclaredNameHasHandler(k: Kind, name: string)
    requires name in RpcInterface(k)
    ensures HandlerFor(k, name).Some?
  {
  }

  lemma MarkovRandomRoutes(v: real, field: string)
    ensures RouteSet(MarkovRandom(v, field)) == {"/setSampleRate", "/getSampleRate"}
  {
    var k := MarkovRandom(v, field);
    var names := RpcInterface(k).Keys;
    assert names == {"setSampleRate", "getSampleRate"};
    assert RouteOf("setSampleRate") == "/setSampleRate";
    assert RouteOf("getSampleRate") == "/getSampleRate";
    forall route | route in RouteSet(k)
      ensures route == "/setSampleRate" || route == "/getSampleRate"
    {
      var name :| name in names && route == RouteOf(name);
      assert name == "setSampleRate" || name == "getSampleRate";
    }
    assert "/setSampleRate" in RouteSet(k);
    assert "/getSampleRate" in RouteSet(k);
  }

  /** `_setup_rpc_interface`: bind one POST route `/name` per interface
      name to the handler of that name. */
  method SetupRpcInterface(k: Kind) returns (r: Result<map<string, Handler>, Fault>)
    ensures r.Ok? <==> forall name :: name in RpcInterface(k) ==> HandlerFor(k, name).Some?
    ensures r.Ok? ==> r.value.Keys == RouteSet(k)
    ensures r.Ok? ==> forall name :: name in RpcInterface(k) ==>
                        r.value[RouteOf(name)] == HandlerFor(k, name).value
    ensures r.Err? ==> r.error == MissingHandler
  {
    var iface := RpcInterface(k);
    var remaining := iface.Keys;
    var routes: map<string, Handler> := map[];
    while remaining != {}
      invariant remaining <= iface.Keys
      invariant routes.Keys == set name | name in iface.Keys - remaining :: RouteOf(name)
      invariant forall name :: name in iface.Keys - remaining ==>
                  HandlerFor(k, name).Some? && routes[RouteOf(name)] == HandlerFor(k, name).value
      decreases remaining
    {
      var name :| name in remaining;
      var h := HandlerFor(k, name);
      if h.None? {
        return Err(MissingHandler);
      }
      forall other | other in iface.Keys - remaining
        ensures RouteOf(other) != RouteOf(name)
      {
        RouteOfInjective(other, name);
      }
      routes := routes[RouteOf(name) := h.value];
      remaining := remaining - {name};
    }
    return Ok(routes);
  }

  /** What an RPC handler answers. */
  datatype Reply =
    | RateChanged(oldRate: real, newRate: Json)   // {"old_rate", "new_rate"}
    | CurrentRate(rate: real)                     // {"rate"}

  /** The numeric "rate" of a request body, if it has one; a boolean counts
      as the number Python takes it for. */
  function RequestedRate(body: Json): Option<real> {
    if body.JObj? && "rate" in body.fields then AsNumber(body.fields["rate"]) else None
  }

  /** `setSampleRate`: replace the frequency with the body's "rate" and
      answer the previous and the new rate. No range check is made. */
  function SetSampleRate(s: Sensor, body: Json): (r: Result<(Sensor, Reply), Fault>)
    ensures r.Ok? <==> RequestedRate(body).Some?
    ensures r.Ok? ==> r.value.0 == s.(freq := RequestedRate(body).value)
    ensures r.Ok? ==> r.value.1 == RateChanged(s.freq, body.fields["rate"])
    ensures r.Err? ==> r.error == BadRequestBody
  {
    match RequestedRate(body)
    case None => Err(BadRequestBody)
    case Some(rate) => Ok((s.(freq := rate), RateChanged(s.freq, body.fields["rate"])))
  }

  /** `getSampleRate`. */
  function GetSampleRate(s: Sensor): (r: Reply)
    ensures r.CurrentRate? && r.rate == s.freq
  {
    CurrentRate(s.freq)
  }

  /** A body carrying the rate `x`. */
  function RateBody(x: real): (j: Json)
    ensures RequestedRate(j) == Some(x)
  {
    JObj(map["rate" := JReal(x)])
  }

  /** Setting a rate and then reading it back gives that rate; the reply
      to the set reports the frequency before the call. */
  lemma SetThenGet(s: Sensor, x: real)
    ensures SetSampleRate(s, RateBody(x)).Ok?
    ensures GetSampleRate(SetSampleRate(s, RateBody(x)).value.0) == CurrentRate(x)
    ensures SetSampleRate(s, RateBody(x)).value.1.oldRate == s.freq
  {
  }

  /** Setting the old rate back restores the sensor exactly. */
  lemma SetRateUndo(s: Sensor, x: real)
    ensures SetSampleRate(SetSampleRate(s, RateBody(x)).value.0, RateBody(s.freq)).value.0 == s
  {
  }

  /** An inbound POST to `path`: the bound handler runs, an unbound path is
      answered with "not found" and leaves the sensor as it was. */
  function Dispatch(s: Sensor, routes: map<string, Handler>, path: string, body: Json)
    : (r: Result<(Sensor, Reply), Fault>)
    ensures path !in routes ==> r == Err(RouteNotFound)
    ensures path in routes && routes[path] == SetSampleRateHandler ==> r == SetSampleRate(s, body)
    ensures path in routes && routes[path] == GetSampleRateHandler ==> r == Ok((s, GetSampleRate(s)))
    ensures r.Ok? ==> r.value.0.identifier == s.identifier && r.value.0.kind == s.kind
  {
    if path !in routes then Err(RouteNotFound)
    else match routes[path]
      case SetSampleRateHandler => SetSampleRate(s, body)
      case GetSampleRateHandler => Ok((s, GetSampleRate(s)))
  }

  /** On the routes `SetupRpcInterface` binds for a Gaussian-walk sensor,
      a POST to /setSampleRate sets the rate, one to /getSampleRate reads
      it, and any other path is not found. */
  lemma DispatchOnBoundRoutes(s: Sensor, routes: map<string, Handler>, path: string, body: Json)
    requires s.kind.MarkovRandom?
    requires routes.Keys == RouteSet(s.kind)
    requires forall name :: name in RpcInterface(s.kind) ==> routes[RouteOf(name)] == HandlerFor(s.kind, name).value
    ensures Dispatch(s, routes, "/setSampleRate", body) == SetSampleRate(s, body)
    ensures Dispatch(s, routes, "/getSampleRate", body) == Ok((s, GetSampleRate(s)))
    ensures path != "/setSampleRate" && path != "/getSampleRate" ==> Dispatch(s, routes, path, body) == Err(RouteNotFound)
  {
    MarkovRandomRoutes(s.kind.value, s.kind.field);
    assert RouteOf("setSampleRate") == "/setSampleRate";
    assert RouteOf("getSampleRate") == "/getSampleRate";
    assert routes.Keys == {"/setSampleRate", "/getSampleRate"};
    assert routes["/setSampleRate"] == SetSampleRateHandler;
    assert routes["/getSampleRate"] == GetSampleRateHandler;
  }

  // ---------------------------------------------------------------------
  // Registration handshake
  // ---------------------------------------------------------------------

  /** A status the handshake accepts. */
  predicate Accepted(a: Response) {
    a.Responded? && (a.status == 200 || a.status == 201)
  }

  /** What `register` did over a run of attempts: the bodies it POSTed, the
      pauses it took and whether it got through. */
  datatype Handshake = Handshake(requests: seq<Identity>, pauses: seq<real>, registered: bool)

  /** `register`: POST the identity until a 200 or 201 comes back, pausing
      `RetryDelay` seconds after any other status and after a connection
      error. `attempts` are the outcomes the successive POSTs meet; if none
      is accepted the handshake is still retrying when they run out. */
  function RunHandshake(s: Sensor, attempts: seq<Response>): (r: Handshake)
    ensures r.registered <==> exists i :: 0 <= i < |attempts| && Accepted(attempts[i])
    ensures 1 <= |r.requests| <= |attempts| || (attempts == [] && r.requests == [])
    ensures r.registered ==> Accepted(attempts[|r.requests| - 1])
    ensures forall j :: 0 <= j < |r.requests| - 1 ==> !Accepted(attempts[j])
    ensures !r.registered ==> |r.requests| == |attempts|
    ensures |r.pauses| == if r.registered then |r.requests| - 1 else |r.requests|
    ensures forall p :: p in r.pauses ==> p == RetryDelay
    ensures forall q :: q in r.requests ==> q == GetIdentity(s)
    decreases |attempts|
  {
    if attempts == [] then Handshake([], [], false)
    else if Accepted(attempts[0]) then Handshake([GetIdentity(s)], [], true)
    else
      var rest := RunHandshake(s, attempts[1..]);
      assert forall i :: 1 <= i < |attempts| ==> attempts[i] == attempts[1..][i - 1];
      Handshake([GetIdentity(s)] + rest.requests, [RetryDelay] + rest.pauses, rest.registered)
  }

  /** The handshake ends at the first accepted attempt, having paused once
      for every attempt before it. */
  lemma HandshakeStopsAtFirstSuccess(s: Sensor, attempts: seq<Response>, n: nat)
    requires n < |attempts| && Accepted(attempts[n])
    requires forall j :: 0 <= j < n ==> !Accepted(attempts[j])
    ensures RunHandshake(s, attempts).registered
    ensures |RunHandshake(s, attempts).requests| == n + 1
    ensures |RunHandshake(s, attempts).pauses| == n
  {
  }

  // ---------------------------------------------------------------------
  // Data generation and the telemetry loop
  // ---------------------------------------------------------------------

  /** `gen_data`: the Gaussian walk adds `noise` to the current value and
      reports the new value under the field; the base class has none. */
  function GenData(s: Sensor, noise: real): (r: Result<(Sensor, TelemetryBody), Fault>)
    ensures r.Ok? <==> s.kind.MarkovRandom?
    ensures r.Err? ==> r.error == NotImplemented
    ensures r.Ok? ==> r.value.0 == s.(kind := MarkovRandom(s.kind.value + noise, s.kind.field))
    ensures r.Ok? ==> r.value.1.identifier == s.identifier
    ensures r.Ok? ==> r.value.1.data == Single(s.kind.field, JReal(r.value.0.kind.value))
  {
    match s.kind
    case Generic => Err(NotImplemented)
    case MarkovRandom(v, field) =>
      var next := v + noise;
      Ok((s.(kind := MarkovRandom(next, field)), TelemetryBody(s.identifier, Single(field, JReal(next)))))
  }

  /** How one telemetry POST's status is read. */
  datatype TickOutcome = Sent | AwaitingRegistration | SendFailed

  function Classify(status: int): (o: TickOutcome)
    ensures o == Sent <==> Accepted(Responded(status))
    ensures o == AwaitingRegistration <==> status == 403
  {
    if status == 200 || status == 201 then Sent
    else if status == 403 then AwaitingRegistration
    else SendFailed
  }

  /** What the loop visibly does: a POST with its reading, or a pause. */
  datatype Effect = Posted(body: TelemetryBody, outcome: TickOutcome) | Slept(seconds: real)

  /** What happens to the loop between ticks: a tick meeting a response, or
      an inbound `setSampleRate` request handled between two ticks. */
  datatype Event = Tick(noise: real, response: Response) | RateRequest(body: Json)

  /** The state after a stretch of the loop, what it did, and the fault that
      ended the loop's task, if one did. After such a fault `sensor` still
      follows the rate requests the RPC server goes on serving. */
  datatype Run = Run(sensor: Sensor, effects: seq<Effect>, stopped: Option<Fault>)

  /** One pass of `_post_data`'s loop: generate, POST, classify, sleep for
      the current `data_interval`. */
  function TickStep(s: Sensor, noise: real, response: Response): (r: Run)
    ensures r.stopped.None? <==> s.kind.MarkovRandom? && response.Responded? && s.freq != 0.0
    ensures r.sensor.identifier == s.identifier && r.sensor.freq == s.freq
    ensures r.sensor.kind.MarkovRandom? == s.kind.MarkovRandom?
    ensures s.kind.MarkovRandom? ==> r.sensor.kind.value == s.kind.value + noise
    ensures r.stopped.None? ==> |r.effects| == 2
    ensures r.stopped.None? ==> r.effects[0] == Posted(GenData(s, noise).value.1, Classify(response.status))
    ensures r.stopped.None? ==> r.effects[1].Slept? && r.effects[1].seconds * s.freq == 1.0
    ensures r.stopped.Some? ==> |r.effects| <= 1
    ensures forall e :: e in r.effects && e.Posted? ==> e.body.identifier == s.identifier
    ensures s.kind.MarkovRandom? ==> r.sensor == GenData(s, noise).value.0
    ensures s.kind.Generic? ==> r.sensor == s
    ensures s.kind.Generic? ==> r.stopped == Some(NotImplemented) && r.effects == []
    ensures s.kind.MarkovRandom? && response.ConnectionFailed? ==> r.stopped == Some(ConnectionLost) && r.effects == []
    ensures s.kind.MarkovRandom? && response.Responded? && s.freq == 0.0 ==>
              r.stopped == Some(ZeroDivision)
              && r.effects == [Posted(GenData(s, noise).value.1, Classify(response.status))]
  {
    match GenData(s, noise)
    case Err(f) => Run(s, [], Some(f))
    case Ok((next, body)) =>
      match response
      case ConnectionFailed => Run(next, [], Some(ConnectionLost))
      case Responded(status) =>
        var posted := Posted(body, Classify(status));
        match DataInterval(next)
        case Err(f) => Run(next, [posted], Some(f))
        case Ok(pause) => Run(next, [posted, Slept(pause)], None)
  }

  /** The state after a POST to /setSampleRate: a class that declares no
      such method binds no such route, so the request is not found; a
      rejected body changes nothing either. */
  function AfterRateRequest(s: Sensor, body: Json): (t: Sensor)
    ensures t.identifier == s.identifier && t.kind == s.kind
    ensures t.port == s.port && t.dest == s.dest && t.sensorType == s.sensorType
    ensures s.kind.MarkovRandom? && RequestedRate(body).Some? ==> t.freq == RequestedRate(body).value
    ensures s.kind.Generic? || RequestedRate(body).None? ==> t == s
  {
    if HandlerFor(s.kind, "setSampleRate").None? then s
    else match SetSampleRate(s, body)
      case Ok((next, _)) => next
      case Err(_) => s
  }

  function CountTicks(events: seq<Event>): nat {
    if events == [] then 0 else (if events[0].Tick? then 1 else 0) + CountTicks(events[1..])
  }

  /** After the loop's task has died the RPC server still runs: later
      ticks never happen, later rate requests still take effect. */
  function AfterStop(s: Sensor, events: seq<Event>): (t: Sensor)
    ensures t.identifier == s.identifier && t.kind == s.kind
    ensures t.port == s.port && t.dest == s.dest && t.sensorType == s.sensorType
    ensures (forall i :: 0 <= i < |events| ==> events[i].Tick?) ==> t == s
    ensures s.kind.Generic? ==> t == s
    ensures s.kind.MarkovRandom? ==> t == s.(freq := t.freq)
    ensures s.kind.MarkovRandom? && |events| > 0 && events[|events| - 1].RateRequest?
            && RequestedRate(events[|events| - 1].body).Some? ==>
              t.freq == RequestedRate(events[|events| - 1].body).value
    decreases |events|
  {
    if events == [] then s
    else match events[0]
      case RateRequest(body) => AfterStop(AfterRateRequest(s, body), events[1..])
      case Tick(_, _) => AfterStop(s, events[1..])
  }

  /** `_post_data` over a finite stretch of events. No status ends it; only
      a fault does, and then only the loop: the sensor keeps answering rate
      requests. */
  function Telemetry(s: Sensor, events: seq<Event>): (r: Run)
    ensures r.sensor.identifier == s.identifier
    ensures r.sensor.kind.MarkovRandom? == s.kind.MarkovRandom?
    ensures |r.effects| <= 2 * CountTicks(events)
    ensures forall e :: e in r.effects && e.Posted? ==> e.body.identifier == s.identifier
    ensures r.sensor.port == s.port && r.sensor.dest == s.dest && r.sensor.sensorType == s.sensorType
    ensures s.kind.MarkovRandom? ==> r.sensor.kind.field == s.kind.field
    ensures s.kind.Generic? ==> r.sensor == s
    ensures s.kind.MarkovRandom? && |events| > 0 && events[|events| - 1].RateRequest?
            && RequestedRate(events[|events| - 1].body).Some? ==>
              r.sensor.freq == RequestedRate(events[|events| - 1].body).value
    decreases |events|
  {
    if events == [] then Run(s, [], None)
    else match events[0]
      case RateRequest(body) => Telemetry(AfterRateRequest(s, body), events[1..])
      case Tick(noise, response) =>
        var t := TickStep(s, noise, response);
        if t.stopped.Some? then Run(AfterStop(t.sensor, events[1..]), t.effects, t.stopped)
        else
          var rest := Telemetry(t.sensor, events[1..]);
          Run(rest.sensor, t.effects + rest.effects, rest.stopped)
  }

  /** Events under which the loop keeps going: every POST gets a status and
      no accepted rate request sets the frequency to zero. */
  predicate Survivable(events: seq<Event>) {
    forall i :: 0 <= i < |events| ==>
      match events[i]
      case Tick(_, response) => response.Responded?
      case RateRequest(body) => RequestedRate(body) != Some(0.0)
  }

  /** The noise the ticks of a stretch of events add up to. */
  function NoiseSum(events: seq<Event>): real {
    if events == [] then 0.0
    else (if events[0].Tick? then events[0].noise else 0.0) + NoiseSum(events[1..])
  }

  /** Whatever statuses the collector answers with (403 included), a
      Gaussian-walk sensor with a non-zero rate ticks through every event:
      one POST and one pause per tick, and the walk ends at the initial value
      plus the sum of the noise. */
  lemma {:induction false} NoStatusEndsLoop(s: Sensor, events: seq<Event>)
    requires s.kind.MarkovRandom? && s.freq != 0.0
    requires Survivable(events)
    ensures Telemetry(s, events).stopped.None?
    ensures |Telemetry(s, events).effects| == 2 * CountTicks(events)
    ensures Telemetry(s, events).sensor.kind.value == s.kind.value + NoiseSum(events)
    decreases |events|
  {
    if events != [] {
      assert Survivable(events[1..]) by {
        forall i | 0 <= i < |events[1..]|
          ensures match events[1..][i]
                  case Tick(_, response) => response.Responded?
                  case RateRequest(body) => RequestedRate(body) != Some(0.0)
        {
          assert events[1..][i] == events[i + 1];
        }
      }
      match events[0]
      case RateRequest(body) =>
        NoStatusEndsLoop(AfterRateRequest(s, body), events[1..]);
      case Tick(noise, response) =>
        assert response.Responded?;
        var t := TickStep(s, noise, response);
        NoStatusEndsLoop(t.sensor, events[1..]);
    }
  }

  /** A rate set between two ticks paces the very next tick. */
  lemma RateChangeTakesEffectNextTick(s: Sensor, x: real, noise: real, status: int)
    requires s.kind.MarkovRandom? && x != 0.0
    ensures var r := Telemetry(s, [RateRequest(RateBody(x)), Tick(noise, Responded(status))]);
            r.stopped.None? && |r.effects| == 2 && r.effects[1].Slept? && r.effects[1].seconds == 1.0 / x
  {
    var s1 := AfterRateRequest(s, RateBody(x));
    assert Telemetry(s, [RateRequest(RateBody(x)), Tick(noise, Responded(status))])
        == Telemetry(s1, [Tick(noise, Responded(status))]);
    var t := TickStep(s1, noise, Responded(status));
    assert Telemetry(s1, [Tick(noise, Responded(status))]).effects == t.effects + Telemetry(t.sensor, []).effects;
  }

  /** A dead telemetry task does not take the RPC server with it: a rate
      set after a connection error still replaces the frequency. */
  lemma RateRequestsOutliveLoop(s: Sensor, noise: real, x: real)
    requires s.kind.MarkovRandom?
    ensures var r := Telemetry(s, [Tick(noise, ConnectionFailed), RateRequest(RateBody(x))]);
            r.stopped == Some(ConnectionLost) && r.effects == [] && r.sensor.freq == x
  {
    var events := [Tick(noise, ConnectionFailed), RateRequest(RateBody(x))];
    var t := TickStep(s, noise, ConnectionFailed);
    assert events[1..] == [RateRequest(RateBody(x))];
    assert AfterStop(t.sensor, events[1..]) == AfterStop(AfterRateRequest(t.sensor, RateBody(x)), []);
  }

  /** The base class serves no RPC routes, so a rate request neither
      changes its frequency nor, its first tick failing, revives it. */
  lemma BaseSensorIgnoresRateRequests(port: int, dest: string, identifier: string, noise: real, response: Response, x: real)
    ensures var s := NewSensor(port, dest, identifier, None);
            var r := Telemetry(s, [RateRequest(RateBody(x)), Tick(noise, response), RateRequest(RateBody(x))]);
            r.sensor.freq == InitialFrequency && r.stopped == Some(NotImplemented) && r.effects == []
  {
    var s := NewSensor(port, dest, identifier, None);
    var events := [RateRequest(RateBody(x)), Tick(noise, response), RateRequest(RateBody(x))];
    assert events[1..][1..] == [RateRequest(RateBody(x))];
  }
}

=== FILE: integration.dfy ===
/** How the agent and the mock spawner fare against the collector's rules:
    the collector's answers fed back into the agent's handshake and
    telemetry loop, and into the spawner's acceptance rules. */
module Integration {
  import opened Protocol
  import Agent
  import Spawner
  import opened SensorModels
  import opened SensorViews

  /** The collector's answer to the agent's registration body. */
  function RegistrationReply(db: Db, s: Agent.Sensor): Result<Reply, Fault> {
    var id := Agent.GetIdentity(s);
    CreateSensor(db, Some(id.identifier), Some(id.sensorType))
  }

  /** Against a collector that does not know the sensor, or knows it under
      the same type, the handshake completes on its first attempt, without
      a pause, and the collector then holds the sensor under its own type. */
  lemma HandshakeCompletesAgainstCollector(db: Db, s: Agent.Sensor, later: seq<Response>)
    requires s.identifier in db.sensors ==> db.sensors[s.identifier].sensorType == s.sensorType
    ensures RegistrationReply(db, s).Ok?
    ensures var r := Agent.RunHandshake(s, [Responded(HttpStatus(RegistrationReply(db, s)))] + later);
            r.registered && |r.requests| == 1 && r.pauses == []
    ensures var after := RegistrationReply(db, s).value.db;
            s.identifier in after.sensors && after.sensors[s.identifier].sensorType == s.sensorType
  {
    var st := HttpStatus(RegistrationReply(db, s));
    assert Agent.Accepted(Responded(st));
    Agent.HandshakeStopsAtFirstSuccess(s, [Responded(st)] + later, 0);
  }

  /** An identifier already taken under another type is refused every
      time, so the handshake retries forever: after `n` attempts it is
      still unregistered, having paused `n` times. */
  lemma HandshakeNeverCompletesOnTypeConflict(db: Db, s: Agent.Sensor, n: nat)
    requires s.identifier in db.sensors && db.sensors[s.identifier].sensorType != s.sensorType
    ensures HttpStatus(RegistrationReply(db, s)) == 500
    ensures var r := Agent.RunHandshake(s, seq(n, _ => Responded(HttpStatus(RegistrationReply(db, s)))));
            !r.registered && |r.pauses| == n
  {
  }

  /** One telemetry tick of a Gaussian-walk agent with the collector's
      reply to its reading fed back in: the agent's run and the collector's
      database afterwards. */
  function TickAgainst(db: Db, s: Agent.Sensor, noise: real, now: int): (Agent.Run, Db)
    requires s.kind.MarkovRandom?
  {
    var body := Agent.GenData(s, noise).value.1;
    var reply := CreateReading(db, Some(body.identifier), body.data, now);
    var run := Agent.TickStep(s, noise, Responded(HttpStatus(reply)));
    (run, if reply.Ok? then reply.value.db else db)
  }

  /** The agent reads the collector's answer as the collector means it: a
      known but inactive sensor is told to await registration and nothing
      is stored; an active one has its reading stored, once, and reads it
      as sent; an unknown one fails and nothing is stored. */
  lemma TickOutcomeMatchesCollector(db: Db, s: Agent.Sensor, noise: real, now: int)
    requires s.kind.MarkovRandom? && s.freq != 0.0
    ensures var (run, db1) := TickAgainst(db, s, noise, now);
            && run.stopped.None?
            && (run.effects[0].outcome == Agent.AwaitingRegistration <==>
                  s.identifier in db.sensors && db.sensors[s.identifier].status != Active)
            && (run.effects[0].outcome == Agent.Sent <==>
                  s.identifier in db.sensors && db.sensors[s.identifier].status == Active)
            && (run.effects[0].outcome == Agent.SendFailed <==> s.identifier !in db.sensors)
            && (run.effects[0].outcome == Agent.Sent ==>
                  db1.readings == db.readings + [Reading(s.identifier, run.effects[0].body.data, now)])
            && (run.effects[0].outcome != Agent.Sent ==> db1 == db)
  {
  }

  /** The life of an agent's sensor at the collector: registered by the
      handshake it is unregistered and its readings are refused with 403;
      once an operator registers it in a room, its next reading is stored. */
  lemma ActivationUnblocksTelemetry(db: Db, s: Agent.Sensor, name: Option<string>, room: RoomId, noise: real, now: int)
    requires Valid(db) && s.identifier !in db.sensors && room in db.rooms
    requires s.kind.MarkovRandom? && s.freq != 0.0
    ensures var db1 := RegistrationReply(db, s).value.db;
            && TickAgainst(db1, s, noise, now).0.effects[0].outcome == Agent.AwaitingRegistration
            && RegisterSensor(db1, s.identifier, name, JInt(room)).Ok?
            && var db2 := RegisterSensor(db1, s.identifier, name, JInt(room)).value.db;
               TickAgainst(db2, s, noise, now).0.effects[0].outcome == Agent.Sent
  {
    var db1 := RegistrationReply(db, s).value.db;
    TickOutcomeMatchesCollector(db1, s, noise, now);
    assert RegisterArguments(db1, s.identifier, JInt(room)) == Ok(room);
    var db2 := RegisterSensor(db1, s.identifier, name, JInt(room)).value.db;
    TickOutcomeMatchesCollector(db2, s, noise, now);
  }

  /** The collector only ever answers a mock reading with 201 or 403 when
      it knows the sensor, so the spawner's narrower acceptance rule holds
      exactly for the sensors the collector knows. */
  lemma MockAcceptsCollectorReplies(db: Db, m: Spawner.MockSensor, d: Spawner.Draw, now: int)
    requires Spawner.ValidDraw(d)
    ensures var body := Spawner.PostData(m, d, ConnectionFailed).body;
            var st := HttpStatus(CreateReading(db, Some(body.identifier), body.data, now));
            var p := Spawner.PostData(m, d, Responded(st));
            p.acceptable.Ok? && (p.acceptable.value <==> m.identifier in db.sensors)
  {
  }

  /** The mock's one-shot registration succeeds against the collector
      unless its identifier is taken under another type. */
  lemma MockRegistrationAgainstCollector(db: Db, m: Spawner.MockSensor)
    ensures var body := Spawner.RegistrationBody(m);
            var st := HttpStatus(CreateSensor(db, Some(body.fields["identifier"].s), Some(body.fields["sensor_type"].s)));
            Spawner.RegisterOnce(Responded(st)) == Ok(
              m.identifier !in db.sensors || db.sensors[m.identifier].sensorType == m.sensorType)
  {
  }
}

=== FILE: protocol.dfy ===
/** Wire-level values shared by the sensor agent, the mock spawner and the
    collector: optional values, error-carrying results, JSON documents, the
    outcome of one outbound HTTP call and the telemetry body. */
module Protocol {

  datatype Option<+T> = None | Some(value: T) {
    function GetOr(default: T): T {
      match this
      case Some(v) => v
      case None => default
    }
  }

  datatype Result<+T, +E> = Ok(value: T) | Err(error: E)

  /** A JSON document as decoded from a request or response body. */
  datatype Json =
    | JNull
    | JBool(b: bool)
    | JInt(i: int)
    | JReal(r: real)
    | JStr(s: string)
    | JList(items: seq<Json>)
    | JObj(fields: map<string, Json>)

  /** The numeric value of a decoded JSON value as Python arithmetic sees
      it: a number is itself, and a boolean, being a Python `int`, is 1 or
      0; anything else has none. */
  function AsNumber(j: Json): (r: Option<real>)
    ensures r.Some? <==> j.JInt? || j.JReal? || j.JBool?
    ensures j.JInt? ==> r == Some(j.i as real)
    ensures j.JReal? ==> r == Some(j.r)
    ensures j.JBool? ==> r == Some(if j.b then 1.0 else 0.0)
  {
    match j
    case JInt(i) => Some(i as real)
    case JReal(x) => Some(x)
    case JBool(b) => Some(if b then 1.0 else 0.0)
    case _ => None
  }

  /** What one outbound POST produced: an HTTP status, or a connection
      error raised by the client before any status arrived. */
  datatype Response = Responded(status: int) | ConnectionFailed

  /** The body POSTed to the collector's `/sensordata/` route:
      `{identifier, data}`. */
  datatype TelemetryBody = TelemetryBody(identifier: string, data: Json)

  /** A JSON object with exactly one field. */
  function Single(key: string, value: Json): (j: Json)
    ensures j.JObj? && j.fields.Keys == {key} && j.fields[key] == value
  {
    JObj(map[key := value])
  }
}

=== FILE: sensor_models.dfy ===
/** The collector's records (homebase/sensors/models.py): sensors with a
    three-valued status, their readings, and the rooms they may sit in.
    The database is a value: sensors keyed by their unique identifier, the
    readings in insertion order, and the set of existing room ids. */
module SensorModels {
  import opened Protocol

  /** `Sensor.SensorStatus`. */
  datatype Status = Active | Inactive | Unregistered

  /** The two-letter value stored in the database. */
  function Code(s: Status): string {
    match s
    case Active => "AC"
    case Inactive => "IN"
    case Unregistered => "UR"
  }

  /** The human-readable label of a choice. */
  function Label(s: Status): string {
    match s
    case Active => "Active"
    case Inactive => "Inactive"
    case Unregistered => "Unregistered"
  }

  /** Reading a stored value back; only the three choices are valid. */
  function StatusFromCode(c: string): (r: Option<Status>)
    ensures r.Some? <==> c == "AC" || c == "IN" || c == "UR"
  {
    if c == "AC" then Some(Active)
    else if c == "IN" then Some(Inactive)
    else if c == "UR" then Some(Unregistered)
    else None
  }

  /** Every status is stored as its own code and read back as itself, and
      the stored value is one of exactly three two-letter codes. */
  lemma StatusCodeRoundTrip(s: Status)
    ensures StatusFromCode(Code(s)) == Some(s)
    ensures |Code(s)| == 2
    ensures Code(s) in {"AC", "IN", "UR"}
  {
  }

  /** Distinct statuses have distinct codes and distinct labels. */
  lemma {:induction false} StatusCodesDistinct(s: Status, t: Status)
    ensures Code(s) == Code(t) ==> s == t
    ensures Label(s) == Label(t) ==> s == t
  {
    if Code(s) == Code(t) {
      StatusCodeRoundTrip(s);
      StatusCodeRoundTrip(t);
    }
  }

  type RoomId = nat

  /** One `Sensor` row. */
  datatype Sensor = Sensor(
    identifier: string,
    name: Option<string>,
    sensorType: string,
    room: Option<RoomId>,
    status: Status,
    lastSeen: Option<int>)

  /** One `SensorData` row; `sensor` is the owning sensor's identifier. */
  datatype Reading = Reading(sensor: string, data: Json, timestamp: int)

  datatype Db = Db(sensors: map<string, Sensor>, readings: seq<Reading>, rooms: set<RoomId>)

  /** A row as created with only the required fields: the defaults leave
      it unregistered, unnamed, in no room and never seen. */
  function NewSensor(identifier: string, sensorType: string): (s: Sensor)
    ensures s.identifier == identifier && s.sensorType == sensorType
    ensures s.status == Unregistered
    ensures s.name.None? && s.room.None? && s.lastSeen.None?
  {
    Sensor(identifier, None, sensorType, None, Unregistered, None)
  }

  /** `Sensor.register(name)`: name the sensor and make it active; nothing
      else about it changes. */
  function Register(s: Sensor, name: Option<string>): (r: Sensor)
    ensures r.name == name && r.status == Active
    ensures r.identifier == s.identifier && r.sensorType == s.sensorType
    ensures r.room == s.room && r.lastSeen == s.lastSeen
  {
    s.(name := name, status := Active)
  }

  /** `Sensor.add_to_room(room)`: only the room changes. */
  function AddToRoom(s: Sensor, room: Option<RoomId>): (r: Sensor)
    ensures r.room == room
    ensures r.identifier == s.identifier && r.sensorType == s.sensorType
    ensures r.name == s.name && r.status == s.status && r.lastSeen == s.lastSeen
  {
    s.(room := room)
  }

  /** Registering twice with the same name is registering once. */
  lemma RegisterIdempotent(s: Sensor, name: Option<string>)
    ensures Register(Register(s, name), name) == Register(s, name)
  {
  }

  /** Naming and placing a sensor are independent updates. */
  lemma RegisterCommutesWithAddToRoom(s: Sensor, name: Option<string>, room: Option<RoomId>)
    ensures Register(AddToRoom(s, room), name) == AddToRoom(Register(s, name), room)
  {
  }

  /** The database's integrity constraints: identifiers are unique (each
      row sits under its own identifier), every reading belongs to an
      existing sensor, every sensor's room exists. */
  ghost predicate Valid(db: Db) {
    && (forall k :: k in db.sensors ==> db.sensors[k].identifier == k)
    && (forall i :: 0 <= i < |db.readings| ==> db.readings[i].sensor in db.sensors)
    && (forall k :: k in db.sensors && db.sensors[k].room.Some? ==> db.sensors[k].room.value in db.rooms)
  }

  /** Two rows never share an identifier. */
  lemma IdentifiersUnique(db: Db, k1: string, k2: string)
    requires Valid(db) && k1 in db.sensors && k2 in db.sensors
    ensures db.sensors[k1].identifier == db.sensors[k2].identifier ==> k1 == k2
  {
  }

  /** The readings that belong to sensor `k`, in insertion order. */
  function ReadingsOf(readings: seq<Reading>, k: string): (r: seq<Reading>)
    ensures |r| <= |readings|
    ensures forall i :: 0 <= i < |r| ==> r[i].sensor == k && r[i] in readings
    decreases |readings|
  {
    if readings == [] then []
    else
      var rest := ReadingsOf(readings[1..], k);
      if readings[0].sensor == k then [readings[0]] + rest else rest
  }

  /** Appending a reading adds it to its own sensor's readings and to no
      other sensor's. */
  lemma {:induction false} ReadingsOfAppend(readings: seq<Reading>, x: Reading, k: string)
    ensures ReadingsOf(readings + [x], k) == ReadingsOf(readings, k) + (if x.sensor == k then [x] else [])
    decreases |readings|
  {
    if readings == [] {
      assert readings + [x] == [x];
      assert [x][1..] == [];
    } else {
      assert (readings + [x])[1..] == readings[1..] + [x];
      ReadingsOfAppend(readings[1..], x, k);
    }
  }

  /** The readings that do not belong to sensor `k`. */
  function Without(readings: seq<Reading>, k: string): (r: seq<Reading>)
    ensures |r| <= |readings|
    ensures forall i :: 0 <= i < |r| ==> r[i].sensor != k && r[i] in readings
    decreases |readings|
  {
    if readings == [] then []
    else
      var rest := Without(readings[1..], k);
      if readings[0].sensor == k then rest else [readings[0]] + rest
  }

  /** Dropping `k`'s readings leaves every other sensor's readings intact. */
  lemma {:induction false} WithoutKeepsOthers(readings: seq<Reading>, k: string, other: string)
    requires other != k
    ensures ReadingsOf(Without(readings, k), other) == ReadingsOf(readings, other)
    ensures ReadingsOf(Without(readings, k), k) == []
    decreases |readings|
  {
    if readings != [] {
      WithoutKeepsOthers(readings[1..], k, other);
    }
  }

  /** `WithoutKeepsOthers` for every other sensor at once. */
  lemma WithoutKeepsAllOthers(readings: seq<Reading>, k: string)
    ensures forall j :: j != k ==> ReadingsOf(Without(readings, k), j) == ReadingsOf(readings, j)
  {
    forall j | j != k
      ensures ReadingsOf(Without(readings, k), j) == ReadingsOf(readings, j)
    {
      WithoutKeepsOthers(readings, k, j);
    }
  }

  /** Deleting a sensor: its row goes and, by `on_delete=CASCADE`, so do
      all its readings; other sensors keep theirs. */
  function DeleteSensor(db: Db, k: string): (r: Db)
    requires k in db.sensors
    ensures r.sensors.Keys == db.sensors.Keys - {k}
    ensures forall j :: j in r.sensors ==> r.sensors[j] == db.sensors[j]
    ensures forall i :: 0 <= i < |r.readings| ==> r.readings[i].sensor != k
    ensures forall j :: j != k ==> ReadingsOf(r.readings, j) == ReadingsOf(db.readings, j)
    ensures r.rooms == db.rooms
    ensures Valid(db) ==> Valid(r)
  {
    WithoutKeepsAllOthers(db.readings, k);
    Db(db.sensors - {k}, Without(db.readings, k), db.rooms)
  }

  /** Deleting a room: by `on_delete=SET_NULL` its sensors stay, with no room. */
  function DeleteRoom(db: Db, room: RoomId): (r: Db)
    ensures r.rooms == db.rooms - {room}
    ensures r.sensors.Keys == db.sensors.Keys && r.readings == db.readings
    ensures forall k :: k in r.sensors ==>
              r.sensors[k] == (if db.sensors[k].room == Some(room) then AddToRoom(db.sensors[k], None) else db.sensors[k])
    ensures Valid(db) ==> Valid(r)
  {
    var sensors := map k | k in db.sensors ::
      if db.sensors[k].room == Some(room) then AddToRoom(db.sensors[k], None) else db.sensors[k];
    Db(sensors, db.readings, db.rooms - {room})
  }
}

=== FILE: sensor_views.dfy ===
/** The collector's request handlers (homebase/sensors/views.py): the
    sensor create (an idempotent get-or-create), the `register` action, and
    the reading create guarded by the sensor's status. Every handler takes
    the database and the request's fields and returns either the new
    database with the HTTP status, or the exception the handler raises (in
    which case the database is unchanged). */
module SensorViews {
  import opened Protocol
  import opened SensorModels

  datatype Fault =
    | IntegrityError   // an insert the unique / not-null constraints refuse
    | DoesNotExist     // `objects.get` found no row
    | NotFound         // `get_object` found no row (HTTP 404)
    | ValueError       // "Only assign one room"
    | TypeError        // a call with the wrong number of arguments

  datatype Reply = Reply(db: Db, status: int)

  /** The HTTP status a client sees: the reply's own, 404 for a missing
      detail object, 500 for any other uncaught exception. */
  function HttpStatus(r: Result<Reply, Fault>): (status: int)
    ensures r.Ok? ==> status == r.value.status
    ensures r.Err? ==> (status == 404 <==> r.error == NotFound)
    ensures r.Err? ==> status == 404 || status == 500
  {
    match r
    case Ok(reply) => reply.status
    case Err(NotFound) => 404
    case Err(_) => 500
  }

  /** `SensorViewSet.create`: `get_or_create(identifier, sensor_type)`.
      An existing row with both fields equal is returned with 200; otherwise
      a row is inserted and returned with 201. The insert fails when a field
      is missing (NOT NULL) or when the identifier is already taken by a row
      of another type (UNIQUE). */
  function CreateSensor(db: Db, identifier: Option<string>, sensorType: Option<string>)
    : (r: Result<Reply, Fault>)
    ensures r.Ok? <==> (identifier.Some? && sensorType.Some?
                        && (identifier.value in db.sensors ==> db.sensors[identifier.value].sensorType == sensorType.value))
    ensures r.Err? ==> r.error == IntegrityError
    ensures r.Ok? && identifier.value in db.sensors ==> r.value == Reply(db, 200)
    ensures r.Ok? && identifier.value !in db.sensors ==>
              r.value == Reply(db.(sensors := db.sensors[identifier.value := NewSensor(identifier.value, sensorType.value)]), 201)
    ensures r.Ok? ==> r.value.db.readings == db.readings && r.value.db.rooms == db.rooms
    ensures r.Ok? && Valid(db) ==> Valid(r.value.db)
  {
    if identifier.None? || sensorType.None? then Err(IntegrityError)
    else
      var k := identifier.value;
      if k in db.sensors then
        if db.sensors[k].sensorType == sensorType.value then Ok(Reply(db, 200))
        else Err(IntegrityError)
      else Ok(Reply(db.(sensors := db.sensors[k := NewSensor(k, sensorType.value)]), 201))
  }

  /** Creating the same sensor twice: 201, then 200 with nothing changed,
      and exactly one row more than before. */
  lemma CreateSensorIdempotent(db: Db, k: string, t: string)
    requires k !in db.sensors
    ensures CreateSensor(db, Some(k), Some(t)).Ok?
    ensures CreateSensor(db, Some(k), Some(t)).value.status == 201
    ensures var db1 := CreateSensor(db, Some(k), Some(t)).value.db;
            && CreateSensor(db1, Some(k), Some(t)) == Ok(Reply(db1, 200))
            && |db1.sensors| == |db.sensors| + 1
            && db1.sensors[k].status == Unregistered
  {
  }

  /** The same identifier under another type is refused, not duplicated. */
  lemma CreateSensorTypeConflict(db: Db, k: string, t: string)
    requires k in db.sensors && db.sensors[k].sensorType != t
    ensures CreateSensor(db, Some(k), Some(t)) == Err(IntegrityError)
  {
  }

  /** The `room` argument of `register_sensor`: a list must hold exactly
      one element, which is used; any other value is used as is. */
  function NormaliseRoom(room: Json): (r: Result<Json, Fault>)
    ensures !room.JList? ==> r == Ok(room)
    ensures room.JList? ==> (r.Ok? <==> |room.items| == 1)
    ensures room.JList? && r.Ok? ==> r.value == room.items[0]
    ensures r.Err? ==> r.error == ValueError
  {
    match room
    case JList(items) => if |items| == 1 then Ok(items[0]) else Err(ValueError)
    case _ => Ok(room)
  }

  /** `Room.objects.get(id=room)`: an integer naming an existing room. */
  function FindRoom(db: Db, room: Json): (r: Result<RoomId, Fault>)
    ensures r.Ok? <==> room.JInt? && room.i >= 0 && room.i in db.rooms
    ensures r.Ok? ==> r.value == room.i
    ensures r.Err? ==> r.error == DoesNotExist
  {
    if room.JInt? && room.i >= 0 && room.i in db.rooms then Ok(room.i) else Err(DoesNotExist)
  }

  /** The checks `register_sensor` makes before it changes anything: the
      sensor exists, the room argument normalises, the room exists. */
  function RegisterArguments(db: Db, k: string, room: Json): (r: Result<RoomId, Fault>)
    ensures r.Ok? <==> k in db.sensors && NormaliseRoom(room).Ok? && FindRoom(db, NormaliseRoom(room).value).Ok?
    ensures r.Ok? ==> r.value == FindRoom(db, NormaliseRoom(room).value).value && r.value in db.rooms
    ensures k !in db.sensors ==> r == Err(NotFound)
    ensures k in db.sensors && NormaliseRoom(room).Err? ==> r == Err(ValueError)
    ensures k in db.sensors && NormaliseRoom(room).Ok? && r.Err? ==> r == Err(DoesNotExist)
  {
    if k !in db.sensors then Err(NotFound)
    else match NormaliseRoom(room)
      case Err(e) => Err(e)
      case Ok(v) => FindRoom(db, v)
  }

  /** Giving the room as a one-element list is the same as giving the
      element itself. */
  lemma RegisterArgumentsSingletonList(db: Db, k: string, v: Json)
    requires !v.JList?
    ensures RegisterArguments(db, k, JList([v])) == RegisterArguments(db, k, v)
  {
  }

  /** `register_sensor` as written: once its checks pass it calls
      `sensor.register(name, room_obj)`, but `Sensor.register` takes the
      name alone, so the call raises and nothing is saved. */
  function RegisterSensorAsWritten(db: Db, k: string, name: Option<string>, room: Json)
    : (r: Result<Reply, Fault>)
    ensures r.Err?
    ensures RegisterArguments(db, k, room).Ok? ==> r == Err(TypeError)
  {
    match RegisterArguments(db, k, room)
    case Err(e) => Err(e)
    case Ok(_) => Err(TypeError)
  }

  /** `register_sensor` as its tests and callers intend: after the same
      checks, the sensor is named, made active and placed in the room. */
  function RegisterSensor(db: Db, k: string, name: Option<string>, room: Json)
    : (r: Result<Reply, Fault>)
    ensures r.Ok? <==> RegisterArguments(db, k, room).Ok?
    ensures r.Err? ==> r.error == RegisterArguments(db, k, room).error
    ensures r.Ok? ==> r.value.status == 200
    ensures r.Ok? ==> r.value.db.sensors.Keys == db.sensors.Keys
    ensures r.Ok? ==> r.value.db.sensors[k].status == Active && r.value.db.sensors[k].name == name
    ensures r.Ok? ==> r.value.db.sensors[k].room == Some(RegisterArguments(db, k, room).value)
    ensures r.Ok? ==> r.value.db.sensors[k].identifier == db.sensors[k].identifier
    ensures r.Ok? ==> r.value.db.sensors[k].sensorType == db.sensors[k].sensorType
    ensures r.Ok? ==> r.value.db.sensors[k].lastSeen == db.sensors[k].lastSeen
    ensures r.Ok? ==> forall j :: j in db.sensors && j != k ==> r.value.db.sensors[j] == db.sensors[j]
    ensures r.Ok? ==> r.value.db.readings == db.readings && r.value.db.rooms == db.rooms
    ensures r.Ok? && Valid(db) ==> Valid(r.value.db)
  {
    match RegisterArguments(db, k, room)
    case Err(e) => Err(e)
    case Ok(roomId) =>
      var s := AddToRoom(Register(db.sensors[k], name), Some(roomId));
      Ok(Reply(db.(sensors := db.sensors[k := s]), 200))
  }

  /** A concrete request on which the two differ: an existing sensor, an
      existing room given as a one-element list. */
  lemma RegisterArityMismatch()
    ensures var db := Db(map["s1" := NewSensor("s1", "temperature")], [], {7});
            && RegisterSensorAsWritten(db, "s1", Some("Kitchen"), JList([JInt(7)])) == Err(TypeError)
            && RegisterSensor(db, "s1", Some("Kitchen"), JList([JInt(7)])).Ok?
            && RegisterSensor(db, "s1", Some("Kitchen"), JList([JInt(7)])).value.db.sensors["s1"].status == Active
  {
    var db := Db(map["s1" := NewSensor("s1", "temperature")], [], {7});
    assert RegisterArguments(db, "s1", JList([JInt(7)])) == Ok(7);
  }

  /** `SensorDataViewSet.create`: a reading for an unknown identifier
      raises; for a sensor that is not active it is refused with 403; a
      null `data` fails validation with 400; otherwise exactly one reading
      is appended for that sensor, stamped `now`, and answered with 201. */
  function CreateReading(db: Db, identifier: Option<string>, data: Json, now: int)
    : (r: Result<Reply, Fault>)
    ensures r.Err? <==> identifier.None? || identifier.value !in db.sensors
    ensures r.Err? ==> r.error == DoesNotExist
    ensures r.Ok? && db.sensors[identifier.value].status != Active ==> r.value == Reply(db, 403)
    ensures r.Ok? && db.sensors[identifier.value].status == Active && data == JNull ==> r.value == Reply(db, 400)
    ensures r.Ok? && db.sensors[identifier.value].status == Active && data != JNull ==>
              r.value.status == 201
              && r.value.db == db.(readings := db.readings + [Reading(identifier.value, data, now)])
    ensures r.Ok? ==> r.value.db.sensors == db.sensors
    ensures r.Ok? ==> r.value.status in {201, 400, 403}
    ensures r.Ok? && Valid(db) ==> Valid(r.value.db)
  {
    if identifier.None? || identifier.value !in db.sensors then Err(DoesNotExist)
    else
      var k := identifier.value;
      if db.sensors[k].status != Active then Ok(Reply(db, 403))
      else if data == JNull then Ok(Reply(db, 400))
      else Ok(Reply(db.(readings := db.readings + [Reading(k, data, now)]), 201))
  }

  /** A reading posted for an active sensor adds one reading to that
      sensor's readings and leaves every other sensor's readings alone. */
  lemma {:induction false} CreateReadingTouchesOnlyItsSensor(db: Db, k: string, data: Json, now: int, other: string)
    requires k in db.sensors && db.sensors[k].status == Active && data != JNull
    requires other != k
    ensures var db1 := CreateReading(db, Some(k), data, now).value.db;
            && ReadingsOf(db1.readings, k) == ReadingsOf(db.readings, k) + [Reading(k, data, now)]
            && ReadingsOf(db1.readings, other) == ReadingsOf(db.readings, other)
  {
    ReadingsOfAppend(db.readings, Reading(k, data, now), k);
    ReadingsOfAppend(db.readings, Reading(k, data, now), other);
  }

  // ---------------------------------------------------------------------
  // The collector as a whole
  // ---------------------------------------------------------------------

  /** The requests the collector's sensor rules serve. */
  datatype Request =
    | CreateSensorRequest(identifier: Option<string>, sensorType: Option<string>)
    | RegisterRequest(sensor: string, name: Option<string>, room: Json)
    | ReadingRequest(identifier: Option<string>, data: Json, now: int)
    | DeleteSensorRequest(sensor: string)
    | DeleteRoomRequest(roomId: RoomId)

  /** The only status change any request makes is to ACTIVE. */
  predicate OnlyActivates(before: Db, after: Db) {
    forall k :: k in after.sensors ==>
      (k in before.sensors && after.sensors[k].status == before.sensors[k].status)
      || after.sensors[k].status == Active
      || (k !in before.sensors && after.sensors[k].status == Unregistered)
  }

  /** The database after one request; a request that raises changes
      nothing. No request breaks the integrity constraints, and the only
      status change any request makes is to ACTIVE. */
  function Apply(db: Db, req: Request): (r: Db)
    ensures Valid(db) ==> Valid(r)
    ensures OnlyActivates(db, r)
  {
    match req
    case CreateSensorRequest(i, t) =>
      (match CreateSensor(db, i, t) case Ok(reply) => reply.db case Err(_) => db)
    case RegisterRequest(k, name, room) =>
      (match RegisterSensor(db, k, name, room) case Ok(reply) => reply.db case Err(_) => db)
    case ReadingRequest(i, data, now) =>
      (match CreateReading(db, i, data, now) case Ok(reply) => reply.db case Err(_) => db)
    case DeleteSensorRequest(k) => if k in db.sensors then DeleteSensor(db, k) else db
    case DeleteRoomRequest(room) => DeleteRoom(db, room)
  }

  function ApplyAll(db: Db, reqs: seq<Request>): Db
    decreases |reqs|
  {
    if reqs == [] then db else ApplyAll(Apply(db, reqs[0]), reqs[1..])
  }

  /** Nothing the collector serves ever marks a sensor INACTIVE: starting
      from a database with no inactive sensor, none ever appears, and the
      integrity constraints keep holding. */
  lemma {:induction false} NeverInactive(db: Db, reqs: seq<Request>)
    requires Valid(db)
    requires forall k :: k in db.sensors ==> db.sensors[k].status != Inactive
    ensures Valid(ApplyAll(db, reqs))
    ensures forall k :: k in ApplyAll(db, reqs).sensors ==> ApplyAll(db, reqs).sensors[k].status != Inactive
    decreases |reqs|
  {
    if reqs != [] {
      var db1 := Apply(db, reqs[0]);
      NeverInactive(db1, reqs[1..]);
    }
  }
}

=== FILE: spawner.dfy ===
/** The mock sensor spawner of utils/sensor_spawn.py: lightweight sensors,
    each with an integer state `last` driven by one of two generators (a
    Brownian +-1 walk, a rarely flipping binary toggle), that register once
    and then post readings. The values `random.randint(-1, 1)` and
    `random.random()` would draw are parameters. */
module Spawner {
  import opened Protocol

  /** Probability threshold below which the binary toggle flips. */
  const FlipThreshold: real := 0.1

  /** What a generator returns: the payload `{stype: t}` and the new state `t`. */
  datatype Generated = Generated(payload: Json, state: int)

  /** The random values one tick may consume: `randint(-1, 1)` and `random()`. */
  datatype Draw = Draw(step: int, uniform: real)

  predicate ValidDraw(d: Draw) {
    -1 <= d.step <= 1 && 0.0 <= d.uniform < 1.0
  }

  /** `_gen_brownian`: move the state by the drawn step. */
  function GenBrownian(stype: string, seed: int, step: int): (g: Generated)
    requires -1 <= step <= 1
    ensures -1 <= g.state - seed <= 1
    ensures g.state - seed == step
    ensures g.payload == Single(stype, JInt(g.state))
  {
    var t := seed + step;
    Generated(Single(stype, JInt(t)), t)
  }

  /** Python's `int(not bool(seed))`. */
  function Negate(seed: int): (b: int)
    ensures b == 0 || b == 1
    ensures b == 1 <==> seed == 0
  {
    if seed == 0 then 1 else 0
  }

  /** `_gen_binary`: flip the state when the draw is below 0.1, otherwise
      keep `int(seed)`. */
  function GenBinary(stype: string, seed: int, uniform: real): (g: Generated)
    requires 0.0 <= uniform < 1.0
    ensures uniform < FlipThreshold ==> (g.state == 0 <==> seed != 0) && (g.state == 0 || g.state == 1)
    ensures uniform >= FlipThreshold ==> g.state == seed
    ensures g.payload == Single(stype, JInt(g.state))
  {
    var b := if uniform < FlipThreshold then Negate(seed) else seed;
    Generated(Single(stype, JInt(b)), b)
  }

  /** From 0 or 1 the toggle stays in {0, 1}. */
  lemma BinaryStaysBinary(stype: string, seed: int, uniform: real)
    requires seed == 0 || seed == 1
    requires 0.0 <= uniform < 1.0
    ensures GenBinary(stype, seed, uniform).state == 0 || GenBinary(stype, seed, uniform).state == 1
  {
  }

  /** Two flips of a binary state give it back. */
  lemma FlipTwice(stype: string, seed: int, u1: real, u2: real)
    requires seed == 0 || seed == 1
    requires 0.0 <= u1 < FlipThreshold && 0.0 <= u2 < FlipThreshold
    ensures GenBinary(stype, GenBinary(stype, seed, u1).state, u2).state == seed
  {
  }

  /** A generator of `sensor_types`, with the label its payload uses. */
  datatype Generator = Brownian(stype: string) | Binary(stype: string)

  function Generate(gen: Generator, seed: int, d: Draw): (g: Generated)
    requires ValidDraw(d)
    ensures g.payload == Single(gen.stype, JInt(g.state))
  {
    match gen
    case Brownian(stype) => GenBrownian(stype, seed, d.step)
    case Binary(stype) => GenBinary(stype, seed, d.uniform)
  }

  /** `sensor_types`. */
  const SensorTypes: map<string, Generator> :=
    map["temperature" := Brownian("temperature"), "door" := Binary("door")]

  /** A spawned mock sensor. */
  datatype MockSensor = MockSensor(identifier: string, sensorType: string, gen: Generator, last: int)

  /** `Sensor(sensor_type, url, session, sensor_types[sensor_type])`; the
      fresh UUID is a parameter, and an unknown type has no generator. */
  function Spawn(identifier: string, sensorType: string): (r: Option<MockSensor>)
    ensures r.Some? <==> sensorType == "temperature" || sensorType == "door"
    ensures r.Some? ==> r.value.last == 0 && r.value.identifier == identifier
                        && r.value.sensorType == sensorType && r.value.gen.stype == sensorType
    ensures sensorType == "temperature" ==> r.Some? && r.value.gen.Brownian?
    ensures sensorType == "door" ==> r.Some? && r.value.gen.Binary?
  {
    if sensorType in SensorTypes then Some(MockSensor(identifier, sensorType, SensorTypes[sensorType], 0))
    else None
  }

  datatype Fault = ConnectionLost

  /** The registration body: `{identifier, sensor_type}`, without an RPC
      interface. */
  function RegistrationBody(s: MockSensor): (j: Json)
    ensures j.JObj? && j.fields.Keys == {"identifier", "sensor_type"}
    ensures j.fields["identifier"] == JStr(s.identifier) && j.fields["sensor_type"] == JStr(s.sensorType)
  {
    JObj(map["identifier" := JStr(s.identifier), "sensor_type" := JStr(s.sensorType)])
  }

  /** `register`: one attempt, no retry; a 200 or 201 counts as success and
      a connection error is not caught. */
  function RegisterOnce(response: Response): (r: Result<bool, Fault>)
    ensures r.Ok? <==> response.Responded?
    ensures r.Ok? ==> (r.value <==> response.status == 200 || response.status == 201)
  {
    match response
    case ConnectionFailed => Err(ConnectionLost)
    case Responded(status) => Ok(status == 200 || status == 201)
  }

  /** The state update `data, self.last = self.gen_data(self.last)`. */
  function Next(s: MockSensor, d: Draw): (t: MockSensor)
    requires ValidDraw(d)
    ensures t.identifier == s.identifier && t.gen == s.gen && t.sensorType == s.sensorType
    ensures t.last == Generate(s.gen, s.last, d).state
  {
    s.(last := Generate(s.gen, s.last, d).state)
  }

  /** What one `post_data` did: the sensor after it, the body sent, and
      whether the status was acceptable (or the connection error). */
  datatype Posting = Posting(sensor: MockSensor, body: TelemetryBody, acceptable: Result<bool, Fault>)

  /** `post_data`: the state advances before the POST is attempted; only
      201 and 403 are acceptable answers, so a 200 is reported as a failure. */
  function PostData(s: MockSensor, d: Draw, response: Response): (p: Posting)
    requires ValidDraw(d)
    ensures p.sensor == Next(s, d)
    ensures p.body == TelemetryBody(s.identifier, Single(s.gen.stype, JInt(p.sensor.last)))
    ensures p.acceptable.Ok? <==> response.Responded?
    ensures p.acceptable.Ok? ==> (p.acceptable.value <==> response.status == 201 || response.status == 403)
  {
    var g := Generate(s.gen, s.last, d);
    var acceptable := match response
      case ConnectionFailed => Err(ConnectionLost)
      case Responded(status) => Ok(status == 201 || status == 403);
    Posting(Next(s, d), TelemetryBody(s.identifier, g.payload), acceptable)
  }

  /** The state after a run of `post_data` calls, whatever they were answered. */
  function Advance(s: MockSensor, draws: seq<Draw>): (t: MockSensor)
    requires forall i :: 0 <= i < |draws| ==> ValidDraw(draws[i])
    ensures t.identifier == s.identifier && t.gen == s.gen && t.sensorType == s.sensorType
    decreases |draws|
  {
    if draws == [] then s
    else Advance(Next(s, draws[0]), draws[1..])
  }

  /** A door sensor started at 0 or 1 only ever reports 0 or 1. */
  lemma {:induction false} DoorStaysBinary(s: MockSensor, draws: seq<Draw>)
    requires s.gen.Binary? && (s.last == 0 || s.last == 1)
    requires forall i :: 0 <= i < |draws| ==> ValidDraw(draws[i])
    ensures Advance(s, draws).last == 0 || Advance(s, draws).last == 1
    decreases |draws|
  {
    if draws != [] {
      var next := Next(s, draws[0]);
      BinaryStaysBinary(s.gen.stype, s.last, draws[0].uniform);
      DoorStaysBinary(next, draws[1..]);
    }
  }

  /** A temperature sensor moves by at most one per post. */
  lemma {:induction false} BrownianBounded(s: MockSensor, draws: seq<Draw>)
    requires s.gen.Brownian?
    requires forall i :: 0 <= i < |draws| ==> ValidDraw(draws[i])
    ensures -|draws| <= Advance(s, draws).last - s.last <= |draws|
    decreases |draws|
  {
    if draws != [] {
      var next := Next(s, draws[0]);
      BrownianBounded(next, draws[1..]);
    }
  }

  /** A spawned door sensor only ever reports 0 or 1, and a spawned
      temperature sensor stays within the number of posts of its start. */
  lemma SpawnedSensorsStayInRange(identifier: string, draws: seq<Draw>)
    requires forall i :: 0 <= i < |draws| ==> ValidDraw(draws[i])
    ensures var d := Spawn(identifier, "door").value;
            Advance(d, draws).last == 0 || Advance(d, draws).last == 1
    ensures var t := Spawn(identifier, "temperature").value;
            -|draws| <= Advance(t, draws).last <= |draws|
  {
    DoorStaysBinary(Spawn(identifier, "door").value, draws);
    BrownianBounded(Spawn(identifier, "temperature").value, draws);
  }
}
